=== FILE: README.md ===
# Events platform backend: accounts, RSVPs and the follow graph

This project models the account-state and relationship logic of an Express +
Mongoose backend for an events platform. Users register, log in, fill in a
profile, change their settings, follow one another, and RSVP to events.

The model is functional. The database is a `Store` holding two maps:
`users` maps a user id to a `User` document and `events` maps an event id to
an `Event` document. Ids are ObjectId hex strings. Each state-changing route
is a function from a store and a request to a `Response`, which pairs the
HTTP status with the store afterwards. The library calls the handlers make
are given functions in a `Services` value: `bcrypt.hash`,
`bcrypt.compare`, `jwt.verify`, and the cast Mongoose applies to a string
used as an ObjectId (`mongoose.Types.ObjectId.isValid` is whether that cast
succeeds). The cast gives the id in its stored form, which need not be the
string sent: bson accepts upper-case hex digits and stores them in lower
case. Every path id is looked up, and every id written to a reference
array is stored, by its cast. `Services` also records whether a query
filter key whose value is `undefined` is dropped or sent as `null`. A body
field is an `Option<string>`, where `None` stands for `undefined`; it is
truthy when it is present and not empty.

Modules follow the source:

- `JsValues`, `JsStrings`, `Http`: body values and truthiness,
  `String.prototype.split(' ')` with its inverse `Join`, and status codes.
- `RefLists`: the reference arrays, plus `$addToSet` (`AddToSet`) and
  `$pull` (`Pull`).
- `UserSchema`, `EventSchema`: the two documents, their defaults, and the
  `required` validation Mongoose runs on save.
- `Database`: the store, a MongoDB session (`Session`, with abort and
  commit), the `Services`, and the invariants.
- `Auth`: the `authenticateToken` middleware.
- `Accounts`: `/register`, `/login`, `/create-profile`, and
  `/profile/settings/general`, `/privacy` and `/security`.
- `Rsvp`: `/events/:eventId/rsvp` and the `hasRSVPed` flag of `/events`.
- `Social`: follow, unfollow, `isFollowing` on `/user/:userId`, and
  `/members`.
- `Invariants`: each handler keeps the store `Consistent`; `/create-profile` does so for bodies that name no reference array and no empty email or password.
- `Server`: routes each request, running the middleware before every
  protected handler.

Behaviour of the code that the model keeps on purpose:

- The RSVP route updates both sides of the attendance edge inside one
  transaction (server.js:463-494). Every failure aborts it, including a
  missing user after the event was already saved in the session. Follow and
  unfollow instead issue two independent updates (server.js:549-559). When
  one user is missing, the route answers 404, but the update to the other
  user has already been written (`Social.FollowHalfApplied`).
- RSVP refuses a duplicate with 400 "Already RSVPed". Follow is idempotent
  through `$addToSet` and answers 200 again.
- The middleware takes the second `' '`-separated piece of the header. It does
  not check that the first word is `Bearer`. A failed verification gives 403,
  whether the token is malformed, badly signed or expired.
- `/register` looks up `User.findOne({ email })`. With no email in the body
  the filter key is `undefined`. Whether it is dropped depends on the
  Mongoose and driver configuration, so it is a `Services` parameter. If it
  is dropped, the filter matches any user and the answer is 409 whenever the
  store is not empty. If it is sent as `null`, it matches nobody and the
  answer is 500. A missing password makes `bcrypt.hash` throw, giving 500. An
  empty password is hashed and accepted.
- `/profile/settings/general` does not check that the email is unused. The
  unique index on `email` rejects a duplicate, and the handler answers 500.
- `/profile/settings/privacy` sets four paths the user schema does not
  declare. Mongoose's strict mode strips them from the update, so the route
  changes no modelled path; only the `updatedAt` timestamp moves. It answers
  200 when the caller exists and 500 when not.
- A path id that cannot be cast to an ObjectId makes `findById` or
  `findByIdAndUpdate` throw, which gives 500. This applies to the follow and
  unfollow target and to `/user/:userId`. The RSVP route checks
  `isValid` first and answers 400.
- Follow refuses a self-follow by comparing the raw path id with the
  caller's id, before any cast. A path id that differs from the caller's id
  but casts to it, such as the caller's id in upper case, passes the check.
  Both updates then land on the caller's own document, and the answer is
  200 with the caller following themselves (`Social.CaseVariantSelfFollow`,
  `Invariants.FollowSelfEdge`). "No user follows themselves" is therefore
  not part of `Consistent`.
- `/create-profile` passes the whole body to `$set`, and no validator runs on
  the update. The body can therefore set any declared path: it can mark the
  email verified, store an unhashed or empty password, or write reference
  arrays with repeated ids (`Accounts.CreateProfileSetsCredentials`,
  `Invariants.CreateProfileCanBreakConsistency`). An id in such an array
  that does not cast gives 500, and so does an email another user holds.

## Model

| member | source | states |
|---|---|---|
| `JsStrings.Split` | server.js:36 | `header.split(' ')` always yields at least one piece; no piece contains a space; joining the pieces with single spaces gives the header back |
| `JsStrings.SplitUnique` | server.js:36 | the three properties above determine the split: any space-free pieces that join to the string are exactly its split |
| `Auth.BearerToken` | server.js:35-37 | an extracted token is non-empty, has no space, and is one of the header's `' '`-separated pieces; an absent header yields none |
| `Auth.Authenticate` | server.js:34-46 | 401 exactly when no token can be extracted; otherwise 403 when verification fails; otherwise the caller is the id in the token's claim |
| `Auth.NoSpaceUnauthorized` | server.js:35-37 | a missing header, or a header with no space, gets 401 |
| `Auth.EmptyTokenUnauthorized` | server.js:36-37 | a header whose piece after the first space is empty (`"Bearer "`, `"Bearer  x"`) gets 401 |
| `Auth.TokenExtracted` | server.js:36 | for `<word> <token>` and `<word> <token> <more>`, the token is the second piece, whatever the first word is |
| `Auth.TokenVerified` | server.js:39-45 | for any header from which a token is extracted, a failed verification gives 403, and otherwise the claim's id becomes the caller |
| `RefLists.AddToSet` | server.js:549-555 | `$addToSet` keeps the existing elements in order and ends with the value present; it appends exactly one element when the value was absent and none when present |
| `RefLists.Pull` | server.js:579-586 | `$pull` removes every occurrence of the value and keeps every other element with its multiplicity |
| `RefLists.PullAbsent` | server.js:579-586 | pulling a value that is absent leaves the array unchanged |
| `RefLists.PullUndoesAddToSet` | server.js:549-586 | on an array without the value, `$pull` after `$addToSet` gives the original array back |
| `Database.CastAll` | models/userSchema.js:45-56 | an array written to a reference path casts as a whole: it succeeds exactly when every id casts, and then holds, in order, the stored form of each id |
| `UserSchema.NewUser` | models/userSchema.js:3-56 | a new user takes the schema defaults: empty `refreshToken`; `emailVerified`, `phoneVerified` and `profileComplete` false; empty `attending`/`followers`/`following`; every optional path unset, the `location` sub-document included; it validates exactly when email and password hash are non-empty |
| `UserSchema.SchemaAllowsRepeatedFollowers` | models/userSchema.js:45-56 | the schema does not forbid repeated references: a user document with a repeated follower still validates |
| `EventSchema.AttendeesDoNotAffectValidation` | models/eventSchema.js:4-18 | event validation looks only at the required paths, so changing `attendees` cannot make a valid event fail validation |
| `EventSchema.SchemaAllowsRepeatedAttendees` | models/eventSchema.js:12 | `attendees` has no uniqueness constraint: an event with a repeated attendee validates |
| `Accounts.Register` | server.js:113-163 | 409 exactly when `findOne({ email })` finds a user, and then nothing changes; with no email this depends on whether the undefined filter key is dropped. 201 exactly when no user matched, the email is present and non-empty, and the password hashes to a non-empty value. On 201 exactly one user is added under the new id: the new-user document with the email and the hash and every other path at its schema default. Every other outcome is 500 with no change |
| `Accounts.RegisterWithoutEmail` | server.js:114-122 | with no email in the body, registration never succeeds and changes nothing: 409 when the undefined filter key is dropped and some user exists, 500 otherwise |
| `Accounts.RegisterTwiceConflicts` | server.js:117-120 | registering again with an email a registration just took gives 409 and changes nothing |
| `Accounts.Login` | server.js:63-81 | 400 exactly when the email or password is missing or empty. 200 only for a user with that email whose hash matches the password. When emails are unique, 200 exactly when such a user exists; otherwise 401 |
| `Accounts.RegisteredUserCanLogIn` | server.js:63-132 | a user just registered can log in with the same email and password, given that `bcrypt.compare` accepts a password against its own hash |
| `Accounts.CreateProfile` | server.js:396-408 | 500 with no change when an id given for a reference array does not cast, or when the caller exists and another user holds the given email. Otherwise 404 with no change when the caller is missing. On 200 only the caller's document changes: `profileComplete` becomes true, each declared path the body names is overwritten with the value given (reference arrays with the cast ids, in order), and every path the body does not name is kept |
| `Accounts.CreateProfileSetsCredentials` | server.js:398-404 | a body naming `emailVerified: true` and a password is accepted with 200; the email is then marked verified and the password stored as sent |
| `Accounts.GeneralSettings` | server.js:691-709 | 400 exactly when the email or phone is missing or empty. 200 exactly when both are present, the caller exists, and no other user holds the email. On 200 only the caller's `email` and `phone` change; every other outcome changes nothing |
| `Accounts.PrivacySettings` | server.js:713-734 | no modelled path of the store changes; 200 when the caller exists, 500 otherwise |
| `Accounts.SecuritySettings` | server.js:738-765 | 400 exactly when a password field is missing or empty. 401 exactly when both are present, the caller exists, and the current password does not match. 200 exactly when both are present, the caller exists, the current password matches and the document with the new hash validates; then only the caller's password changed, to the hash of the new one. No failure changes anything |
| `Accounts.NewPasswordLogsIn` | server.js:738-765 | after a successful password change the caller can log in with the new password, given that `bcrypt.compare` accepts a password against its own hash |
| `Rsvp.Rsvp` | server.js:451-506 | an event id that is not an ObjectId gives 400; the event is looked up by its cast id. A missing event gives 404; a caller already among the attendees gives 400; a missing caller gives 404. None of these changes the store, even though the event was already saved in the session before the user was found. On 200 the caller is appended to `attendees` once, the cast event id is added to `attending` only if absent, and nothing else changes |
| `Rsvp.RsvpFlags` | server.js:412-423 | `/events` flags every stored event, and an event's flag is true exactly when the caller is among its attendees |
| `Rsvp.RsvpRefusedIffFlagged` | server.js:420-487 | on an existing event, in a store whose documents all validate, RSVP is refused as a duplicate exactly when `/events` already flags it; it succeeds exactly when not flagged and the caller exists |
| `Rsvp.RsvpSetsOnlyItsFlag` | server.js:420-494 | after a successful RSVP, `/events` flags the event for the caller; no other user's flag on any event changes |
| `Rsvp.RsvpTwiceRefused` | server.js:473-492 | repeating a successful RSVP gives 400 with no change, and the caller appears exactly once among the attendees |
| `Social.Follow` | server.js:539-566 | 400 exactly when the raw path id equals the caller's id. 500 exactly when it differs but does not cast. Both change nothing. 200 exactly when both the caller and the user with the cast id exist. In every other case the existing side is still updated: the followers of the cast id get the caller and the caller's `following` gets the cast id, each by `$addToSet`, both on the caller's own document when the cast id is the caller's. No other document changes |
| `Social.Unfollow` | server.js:569-597 | the same outcomes as follow, with `$pull` on the cast id: the caller leaves its `followers` and it leaves the caller's `following`, every occurrence, on whichever side exists |
| `Social.FollowIdempotent` | server.js:549-555 | a second identical follow gives the same status and leaves the store as the first follow left it |
| `Social.FollowHalfApplied` | server.js:549-559 | follow is not atomic: with one of the two users missing, the answer is 404, yet the existing user's list already holds the new reference |
| `Social.CaseVariantSelfFollow` | server.js:543-561 | a path id that differs from the caller's id but casts to it passes the self-follow check: the answer is 200 and the caller is among their own followers and following |
| `Social.UnfollowUndoesFollow` | server.js:549-586 | starting with no edge between the two users, follow then unfollow restores the store exactly, including when one user is missing |
| `Social.ViewUser` | server.js:524-536 | 500 exactly when the path id does not cast; 200 exactly when the user with the cast id exists, 404 otherwise; `isFollowing` is true exactly when the answer is 200 and the caller is among that user's followers |
| `Social.FollowShowsOnTargetPage` | server.js:524-597 | after a follow the target's page shows `isFollowing`, even when the follow answered 404; after an unfollow it does not |
| `Social.Members` | server.js:512-521 | `/members` holds every stored user except the caller, each document unchanged, and nothing else |
| `Social.MemberPagesFound` | server.js:512-536 | `/members` and `/user/:userId` agree: a listed member's page is found, and any user other than the caller whose page is found by an id in stored form is listed |
| `Invariants.RegisterKeepsConsistent` | server.js:113-132 | registration keeps the store Consistent, given that the fresh id is referenced nowhere. Consistent means: every document validates, emails are unique, no reference array repeats an id, and followers/following and attendees/attending mirror each other |
| `Invariants.FollowOfMissingIdReferencesIt` | server.js:549-559 | the fresh-id hypothesis is not kept by the routes: following a missing id answers 404 and leaves a Consistent store that references that id, and registering a user under it then breaks the follow mirror |
| `Invariants.RsvpKeepsConsistent` | server.js:451-497 | RSVP keeps the store Consistent; in particular both sides of the attendance edge are recorded together |
| `Invariants.FollowKeepsConsistent` | server.js:539-561 | follow keeps the store Consistent, including the follower/following mirror between existing users, for every path id, self-follows through a cast included |
| `Invariants.UnfollowKeepsConsistent` | server.js:569-592 | unfollow keeps the store Consistent |
| `Invariants.FollowSelfEdge` | server.js:543-555 | on a Consistent store where nobody follows themselves, follow keeps it so exactly unless the path id differs from the caller's id, casts to it, and the caller exists |
| `Invariants.CreateProfileKeepsConsistent` | server.js:396-404 | profile creation keeps the store Consistent when the body names no reference array and gives no empty email or password |
| `Invariants.CreateProfileCanBreakConsistency` | server.js:398-401 | without that restriction it does not: a body whose `followers` names the caller twice is accepted with 200 and leaves a repeated reference |
| `Invariants.GeneralSettingsKeepsConsistent` | server.js:691-704 | a general-settings update keeps the store Consistent; the unique index keeps emails unique |
| `Invariants.SecuritySettingsKeepsConsistent` | server.js:738-760 | a password change keeps the store Consistent |
| `Server.Handle` | server.js:34-47 | `/register` runs its handler directly; every other route goes through the middleware: no token gives 401 and a failed verification gives 403, both without touching the store; otherwise the handler runs as the token's user |
| `Server.HandleKeepsConsistent` | server.js:396-765 | every state-changing route keeps the store Consistent, given a fresh, unreferenced id for registration and a `/create-profile` body that names no reference array and no empty email or password |

## Left out

- Token issuance (`generateAccessToken`), `bcrypt` and `jwt` internals: they are the given functions in `Services`. Expired and invalid tokens are not told apart, because the middleware answers 403 for both.
- Response bodies, `populate`, and field projections such as `select('-password -refreshToken')`: display shaping that changes no state.
- Read-only routes that only shape a display: `/current-user`, `/profile`, `/events/:eventId`, `/user/events/attending`, `/profile/following` and `/profile/followers`.
- The activity feed (`/activities` and the activity lookup in `/current-user`): its schema file is not part of this model.
- `/verify-email` and `/verify-code`: the generated code is never stored, and `verificationCode` is not a schema path, so the matching rule is unspecified. The code generator uses `Math.random`.
- `/refresh-token`: it calls a `verifyToken` that is not defined. `/forgot-password` and `/reset-password`: e-mail sending and a second token secret.
- `stripe.js`, SendGrid, the Mongoose connection, CORS and `app.listen`: I/O plumbing.
- The 500 answers of the `catch` blocks for database failures, and concurrent requests and transaction isolation: the model is sequential and its store never fails.
- `Rsvp.Rsvp`: a save that fails validation gives 500 with the transaction not committed. In the code, that error reaches a `catch` block that refers to an out-of-scope `session` variable, so the request fails without a reply. That `ReferenceError` also rejects the async handler's promise. Express 4 does not catch it, and no `unhandledRejection` handler is installed, so on Node 15 and later the process exits. The model does not reproduce the missing reply or the exit.
- `Auth.Authenticate`: `verify` yields the token's `userId` claim as an id in stored form. Access tokens are signed with `userId` from a stored user's `_id`. But the password-reset token of server.js:245 is signed with the same secret and carries `id` instead of `userId`. Such a token passes the middleware with `req.userId` undefined, and what each handler then does with an undefined caller is not modelled.
- `Rsvp.Rsvp`, `Social.Follow`, `Social.Unfollow`: the caller id is used without a cast. Casts are modelled for path ids and body ids only.
- `Rsvp.Rsvp`: `user.attending.includes(eventId)` compares the raw path string with the stored ids; the model compares the cast id. The two differ only when the stored form of a case-variant id is already in `attending`. In a Consistent store that cannot happen at this point, because the caller is not yet among that event's attendees.
- `Accounts.CreateProfile`: body values arrive with the type of their path, so casting a string to a `Date`, a number to a string, and the resulting cast errors are not modelled. A body naming `_id`, `createdAt` or `updatedAt` is not modelled either.
- The schema's timestamps (`timestamps: true`, models/userSchema.js:58) are not modelled. `createdAt` and `updatedAt` are written by registration and by every user update: create-profile, all three settings routes, follow, unfollow, and RSVP's save of the user. So "unchanged" in a contract means no modelled path changed.
- `Invariants.RegisterKeepsConsistent`, `Server.HandleKeepsConsistent`: they assume the id MongoDB generates for a new user is referenced by no document. The routes do not guarantee this, because follow of a missing id stores that id (`Invariants.FollowOfMissingIdReferencesIt`), and ObjectIds can be predicted from ones clients see. Consistency after registration is promised only under that assumption.
- `Accounts.Register`: two concurrent registrations racing past the email check are not modelled.
- `Accounts.Login`: the issued token and the user summary in the reply are not modelled; the result is the logged-in user's id.
- `Rsvp.RsvpFlags`, `Social.Members`: the results are maps keyed by document id, so the order in which MongoDB returns documents is not modelled.
- Body fields are strings or absent. JSON `null`, numbers, booleans and objects in those fields are not modelled.

=== FILE: accounts.dfy ===
/** The account handlers: `/register`, `/login`, `/create-profile` and the
    three profile settings updates. */
module Accounts {
  import opened JsValues
  import opened Http
  import opened UserSchema
  import opened Database

  /** Whether `User.findOne({ email })` finds a document. With no email in
      the body the filter key is undefined: when it is dropped the filter
      is empty and matches any stored user; when it is sent as `null` it
      matches no user, since every stored user has an email. */
  predicate FindsUserByEmail(st: Store, svc: Services, email: Option<string>)
  {
    match email
    case None => svc.dropsUndefinedFilterKeys && st.users != map[]
    case Some(e) => EmailInUse(st, e)
  }

  /** `/register`. A taken email gives 409. A missing password makes
      `bcrypt.hash` throw (500); a missing or empty email, or an empty hash,
      fails the `required` validator on save (500). Otherwise exactly one
      user is added under the freshly generated `newId`. */
  function Register(st: Store, svc: Services, email: Option<string>, password: Option<string>, newId: ObjectId): (r: Response)
    requires newId !in st.users
    ensures r.status == StatusCreated || r.status == StatusConflict || r.status == StatusServerError
    ensures r.status != StatusCreated ==> r.store == st
    ensures r.status == StatusConflict <==> FindsUserByEmail(st, svc, email)
    ensures r.status == StatusCreated <==>
      && !FindsUserByEmail(st, svc, email)
      && email.Some? && email.value != ""
      && password.Some? && svc.hash(password.value) != ""
    ensures r.status == StatusCreated ==>
      && r.store.events == st.events
      && r.store.users.Keys == st.users.Keys + {newId}
      && (forall id :: id in st.users ==> r.store.users[id] == st.users[id])
      && r.store.users[newId] == NewUser(email.value, svc.hash(password.value))
      && r.store.users[newId].email == email.value
      && r.store.users[newId].password == svc.hash(password.value)
      && !r.store.users[newId].profileComplete
      && !r.store.users[newId].emailVerified
  {
    if FindsUserByEmail(st, svc, email) then Response(StatusConflict, st)
    else if password.None? then Response(StatusServerError, st)
    else
      var hashed := svc.hash(password.value);
      if email.None? then Response(StatusServerError, st)
      else
        var u := NewUser(email.value, hashed);
        if !PassesValidation(u) then Response(StatusServerError, st)
        else Response(StatusCreated, st.(users := st.users[newId := u]))
  }

  /** With no email in the body, registration never succeeds: it answers
      409 when the undefined filter key is dropped and some user exists,
      and 500 otherwise. */
  lemma RegisterWithoutEmail(st: Store, svc: Services, password: Option<string>, newId: ObjectId)
    requires newId !in st.users
    ensures Register(st, svc, None, password, newId) ==
      Response(if svc.dropsUndefinedFilterKeys && st.users != map[] then StatusConflict else StatusServerError, st)
  {
  }

  /** A second registration with an email that a registration just took is
      refused with 409 and changes nothing. */
  lemma RegisterTwiceConflicts(st: Store, svc: Services, email: Option<string>, p1: Option<string>, p2: Option<string>, id1: ObjectId, id2: ObjectId)
    requires id1 !in st.users
    requires Register(st, svc, email, p1, id1).status == StatusCreated
    requires id2 !in Register(st, svc, email, p1, id1).store.users
    ensures Register(Register(st, svc, email, p1, id1).store, svc, email, p2, id2)
            == Response(StatusConflict, Register(st, svc, email, p1, id1).store)
  {
  }

  /** Whether `/login` with these body fields can succeed: some user has the
      email and the password matches that user's hash. */
  predicate CanLogIn(st: Store, svc: Services, email: Option<string>, password: Option<string>)
  {
    && Truthy(email) && Truthy(password)
    && exists id :: id in st.users && st.users[id].email == email.value
                    && svc.matches(password.value, st.users[id].password)
  }

  /** `/login`. Missing fields give 400; an unknown email or a wrong password
      gives 401, the same answer for both; otherwise the user found by email
      is logged in. `findOne` returns some user with the email, so when
      emails are unique the outcome is determined. */
  method Login(st: Store, svc: Services, email: Option<string>, password: Option<string>)
    returns (status: int, user: Option<ObjectId>)
    ensures status == StatusOk || status == StatusBadRequest || status == StatusUnauthorized
    ensures status == StatusBadRequest <==> !Truthy(email) || !Truthy(password)
    ensures status != StatusOk ==> user.None?
    ensures status == StatusOk ==>
      && user.Some? && user.value in st.users
      && st.users[user.value].email == email.value
      && svc.matches(password.value, st.users[user.value].password)
    ensures status == StatusUnauthorized ==> Truthy(email) && Truthy(password)
    ensures !CanLogIn(st, svc, email, password) ==> status != StatusOk
    ensures EmailsUnique(st) && CanLogIn(st, svc, email, password) ==> status == StatusOk
  {
    if !Truthy(email) || !Truthy(password) {
      return StatusBadRequest, None;
    }
    var found := set id | id in st.users && st.users[id].email == email.value;
    if found == {} {
      assert forall id :: id in st.users && st.users[id].email == email.value ==> id in found;
      return StatusUnauthorized, None;
    }
    var id :| id in found;
    if !svc.matches(password.value, st.users[id].password) {
      assert EmailsUnique(st) ==> !CanLogIn(st, svc, email, password);
      return StatusUnauthorized, None;
    }
    return StatusOk, Some(id);
  }

  /** A freshly registered user can log in with the password they registered
      with, provided `bcrypt.compare` accepts a password against its own hash. */
  lemma RegisteredUserCanLogIn(st: Store, svc: Services, email: Option<string>, password: Option<string>, newId: ObjectId)
    requires newId !in st.users
    requires Register(st, svc, email, password, newId).status == StatusCreated
    requires Truthy(password) && svc.matches(password.value, svc.hash(password.value))
    ensures CanLogIn(Register(st, svc, email, password, newId).store, svc, email, password)
  {
  }

  /** The user paths a `/create-profile` body may name, each absent unless
      given. `$set` writes every declared path the body names, including
      the credentials, the flags and the reference arrays; `profileComplete`
      is not here because the handler's own `profileComplete: true`
      overrides it, and undeclared keys are stripped. The reference arrays
      hold ids as sent, cast when written. */
  datatype ProfilePatch = ProfilePatch(
    email: Option<string>,
    password: Option<string>,
    refreshToken: Option<string>,
    emailVerified: Option<bool>,
    firstName: Option<string>,
    lastName: Option<string>,
    birthday: Option<Date>,
    location: Option<UserLocation>,
    phone: Option<string>,
    phoneVerified: Option<bool>,
    profile: Option<string>,
    signUpIPAddress: Option<string>,
    stripeCustomerId: Option<string>,
    attending: Option<seq<string>>,
    followers: Option<seq<string>>,
    following: Option<seq<string>>)

  /** A body naming no path. */
  function NoFields(): ProfilePatch
  {
    ProfilePatch(None, None, None, None, None, None, None, None, None, None, None, None, None, None, None, None)
  }

  /** `$set` of one path holding a value. */
  function Overwrite<T>(current: T, given: Option<T>): T
  {
    if given.Some? then given.value else current
  }

  /** `$set` of one optional path. */
  function SetOptional<T>(current: Option<T>, given: Option<T>): Option<T>
  {
    if given.Some? then given else current
  }

  /** Whether every id the body gives for a reference array casts. */
  predicate RefsCast(svc: Services, given: Option<seq<string>>)
  {
    given.Some? ==> CastAll(svc, given.value).Some?
  }

  /** `$set` of a reference array: the given ids in stored form. */
  function SetRefs(svc: Services, current: seq<ObjectId>, given: Option<seq<string>>): seq<ObjectId>
    requires RefsCast(svc, given)
  {
    if given.Some? then CastAll(svc, given.value).value else current
  }

  /** Whether the ids of a reference array in the body are, in order, the
      stored form of the ids written. */
  predicate CastsTo(svc: Services, given: seq<string>, written: seq<ObjectId>)
  {
    |written| == |given| && forall i :: 0 <= i < |given| ==> svc.cast(given[i]) == Some(written[i])
  }

  /** `/create-profile`: `$set` of the body together with
      `profileComplete: true` on the caller. An id in a reference array that
      does not cast makes the update throw before it runs (500); a missing
      caller gives 404; an email another user holds is rejected by the
      unique index (500). No validator runs on this update, so an empty
      email or password is written as given, and a password is stored as
      sent, unhashed. */
  function CreateProfile(st: Store, svc: Services, caller: ObjectId, patch: ProfilePatch): (r: Response)
    ensures r.status in {StatusOk, StatusNotFound, StatusServerError}
    ensures r.status != StatusOk ==> r.store == st
    ensures r.status == StatusServerError <==>
      || !RefsCast(svc, patch.attending) || !RefsCast(svc, patch.followers) || !RefsCast(svc, patch.following)
      || (caller in st.users && patch.email.Some? && EmailHeldByOther(st, caller, patch.email.value))
    ensures r.status == StatusNotFound <==>
      && RefsCast(svc, patch.attending) && RefsCast(svc, patch.followers) && RefsCast(svc, patch.following)
      && caller !in st.users
    ensures r.status == StatusOk ==> OnlyUserChanged(st, r.store, caller) && caller in r.store.users
    ensures r.status == StatusOk ==>
      var u, u' := st.users[caller], r.store.users[caller];
      && u'.profileComplete
      && (patch.email.Some? ==> u'.email == patch.email.value)
      && (patch.email.None? ==> u'.email == u.email)
      && (patch.password.Some? ==> u'.password == patch.password.value)
      && (patch.password.None? ==> u'.password == u.password)
      && (patch.refreshToken.Some? ==> u'.refreshToken == patch.refreshToken.value)
      && (patch.refreshToken.None? ==> u'.refreshToken == u.refreshToken)
      && (patch.emailVerified.Some? ==> u'.emailVerified == patch.emailVerified.value)
      && (patch.emailVerified.None? ==> u'.emailVerified == u.emailVerified)
      && (patch.firstName.Some? ==> u'.firstName == patch.firstName)
      && (patch.firstName.None? ==> u'.firstName == u.firstName)
      && (patch.lastName.Some? ==> u'.lastName == patch.lastName)
      && (patch.lastName.None? ==> u'.lastName == u.lastName)
      && (patch.birthday.Some? ==> u'.birthday == patch.birthday)
      && (patch.birthday.None? ==> u'.birthday == u.birthday)
      && (patch.location.Some? ==> u'.location == patch.location.value)
      && (patch.location.None? ==> u'.location == u.location)
      && (patch.phone.Some? ==> u'.phone == patch.phone)
      && (patch.phone.None? ==> u'.phone == u.phone)
      && (patch.phoneVerified.Some? ==> u'.phoneVerified == patch.phoneVerified.value)
      && (patch.phoneVerified.None? ==> u'.phoneVerified == u.phoneVerified)
      && (patch.profile.Some? ==> u'.profile == patch.profile)
      && (patch.profile.None? ==> u'.profile == u.profile)
      && (patch.signUpIPAddress.Some? ==> u'.signUpIPAddress == patch.signUpIPAddress)
      && (patch.signUpIPAddress.None? ==> u'.signUpIPAddress == u.signUpIPAddress)
      && (patch.stripeCustomerId.Some? ==> u'.stripeCustomerId == patch.stripeCustomerId)
      && (patch.stripeCustomerId.None? ==> u'.stripeCustomerId == u.stripeCustomerId)
      && (patch.attending.Some? ==> CastsTo(svc, patch.attending.value, u'.attending))
      && (patch.attending.None? ==> u'.attending == u.attending)
      && (patch.followers.Some? ==> CastsTo(svc, patch.followers.value, u'.followers))
      && (patch.followers.None? ==> u'.followers == u.followers)
      && (patch.following.Some? ==> CastsTo(svc, patch.following.value, u'.following))
      && (patch.following.None? ==> u'.following == u.following)
  {
    if !RefsCast(svc, patch.attending) || !RefsCast(svc, patch.followers) || !RefsCast(svc, patch.following) then
      Response(StatusServerError, st)
    else if caller !in st.users then Response(StatusNotFound, st)
    else if patch.email.Some? && EmailHeldByOther(st, caller, patch.email.value) then Response(StatusServerError, st)
    else
      var u := st.users[caller];
      var u' := u.(
        email := Overwrite(u.email, patch.email),
        password := Overwrite(u.password, patch.password),
        refreshToken := Overwrite(u.refreshToken, patch.refreshToken),
        emailVerified := Overwrite(u.emailVerified, patch.emailVerified),
        firstName := SetOptional(u.firstName, patch.firstName),
        lastName := SetOptional(u.lastName, patch.lastName),
        birthday := SetOptional(u.birthday, patch.birthday),
        location := Overwrite(u.location, patch.location),
        phone := SetOptional(u.phone, patch.phone),
        phoneVerified := Overwrite(u.phoneVerified, patch.phoneVerified),
        profile := SetOptional(u.profile, patch.profile),
        signUpIPAddress := SetOptional(u.signUpIPAddress, patch.signUpIPAddress),
        stripeCustomerId := SetOptional(u.stripeCustomerId, patch.stripeCustomerId),
        profileComplete := true,
        attending := SetRefs(svc, u.attending, patch.attending),
        followers := SetRefs(svc, u.followers, patch.followers),
        following := SetRefs(svc, u.following, patch.following));
      Response(StatusOk, UpdateUser(st, caller, u'))
  }

  /** The body can mark the caller's email as verified and replace their
      password with an unhashed one: `/create-profile` answers 200 and
      stores both. */
  lemma CreateProfileSetsCredentials(st: Store, svc: Services, caller: ObjectId, password: string)
    requires caller in st.users
    ensures var r := CreateProfile(st, svc, caller, NoFields().(emailVerified := Some(true), password := Some(password)));
      && r.status == StatusOk
      && r.store.users[caller].emailVerified
      && r.store.users[caller].password == password
  {
  }

  /** `/profile/settings/general`: both `email` and `phone` must be truthy
      (400). A missing caller makes the handler throw (500), and so does the
      unique index on `email` when another user holds the new email.
      Otherwise only the caller's `email` and `phone` change. */
  function GeneralSettings(st: Store, caller: ObjectId, email: Option<string>, phone: Option<string>): (r: Response)
    ensures r.status == StatusOk || r.status == StatusBadRequest || r.status == StatusServerError
    ensures r.status != StatusOk ==> r.store == st
    ensures r.status == StatusBadRequest <==> !Truthy(email) || !Truthy(phone)
    ensures r.status == StatusOk <==>
      Truthy(email) && Truthy(phone) && caller in st.users && !EmailHeldByOther(st, caller, email.value)
    ensures r.status == StatusOk ==>
      && OnlyUserChanged(st, r.store, caller)
      && r.store.users[caller] == st.users[caller].(email := email.value, phone := Some(phone.value))
  {
    if !Truthy(email) || !Truthy(phone) then Response(StatusBadRequest, st)
    else if caller !in st.users then Response(StatusServerError, st)
    else if EmailHeldByOther(st, caller, email.value) then Response(StatusServerError, st)
    else
      var u := st.users[caller];
      Response(StatusOk, UpdateUser(st, caller, u.(email := email.value, phone := Some(phone.value))))
  }

  /** `/profile/settings/privacy`. None of the four fields it sets is a path
      of the user schema, and Mongoose's strict mode strips such paths from
      an update, so the update writes nothing: 200 when the caller exists,
      500 (the handler throws) when not. */
  function PrivacySettings(st: Store, caller: ObjectId): (r: Response)
    ensures r.store == st
    ensures r.status == (if caller in st.users then StatusOk else StatusServerError)
  {
    if caller in st.users then Response(StatusOk, st) else Response(StatusServerError, st)
  }

  /** `/profile/settings/security`: both passwords must be truthy (400); a
      missing caller makes the handler throw (500); a current password that
      does not match the stored hash gives 401. Otherwise only the caller's
      password changes, to the hash of the new one (an empty hash fails
      validation on save, 500). */
  function SecuritySettings(st: Store, svc: Services, caller: ObjectId, currentPassword: Option<string>, newPassword: Option<string>): (r: Response)
    ensures r.status in {StatusOk, StatusBadRequest, StatusUnauthorized, StatusServerError}
    ensures r.status != StatusOk ==> r.store == st
    ensures r.status == StatusBadRequest <==> !Truthy(currentPassword) || !Truthy(newPassword)
    ensures r.status == StatusUnauthorized <==>
      && Truthy(currentPassword) && Truthy(newPassword) && caller in st.users
      && !svc.matches(currentPassword.value, st.users[caller].password)
    ensures r.status == StatusOk <==>
      && Truthy(currentPassword) && Truthy(newPassword) && caller in st.users
      && svc.matches(currentPassword.value, st.users[caller].password)
      && PassesValidation(st.users[caller].(password := svc.hash(newPassword.value)))
    ensures r.status == StatusOk ==>
      && caller in st.users
      && svc.matches(currentPassword.value, st.users[caller].password)
      && OnlyUserChanged(st, r.store, caller)
      && r.store.users[caller] == st.users[caller].(password := svc.hash(newPassword.value))
  {
    if !Truthy(currentPassword) || !Truthy(newPassword) then Response(StatusBadRequest, st)
    else if caller !in st.users then Response(StatusServerError, st)
    else
      var u := st.users[caller];
      if !svc.matches(currentPassword.value, u.password) then Response(StatusUnauthorized, st)
      else
        var u' := u.(password := svc.hash(newPassword.value));
        if !PassesValidation(u') then Response(StatusServerError, st)
        else Response(StatusOk, UpdateUser(st, caller, u'))
  }

  /** After a password change the caller can log in with the new password,
      provided `bcrypt.compare` accepts a password against its own hash. */
  lemma NewPasswordLogsIn(st: Store, svc: Services, caller: ObjectId, currentPassword: Option<string>, newPassword: Option<string>)
    requires SecuritySettings(st, svc, caller, currentPassword, newPassword).status == StatusOk
    requires svc.matches(newPassword.value, svc.hash(newPassword.value))
    requires st.users[caller].email != ""
    ensures CanLogIn(SecuritySettings(st, svc, caller, currentPassword, newPassword).store, svc,
                     Some(st.users[caller].email), newPassword)
  {
  }
}

=== FILE: auth.dfy ===
/** The `authenticateToken` middleware: finds the bearer token in the
    Authorization header and verifies it, yielding the caller's id. */
module Auth {
  import opened JsValues
  import opened JsStrings
  import opened Http

  /** `authHeader && authHeader.split(' ')[1]`, keeping only a truthy result:
      the second space-separated piece of the header. The word before the
      first space is not inspected. */
  function BearerToken(header: Option<string>): (token: Option<string>)
    ensures token.Some? ==> header.Some? && token.value != "" && ' ' !in token.value
    ensures token.Some? ==> token.value in Split(header.value)
  {
    if !Truthy(header) then None
    else
      var parts := Split(header.value);
      if |parts| < 2 || parts[1] == "" then None else Some(parts[1])
  }

  /** The middleware's verdict: a rejection status, or the caller's id. */
  datatype AuthResult = Rejected(status: int) | Authenticated(caller: ObjectId)

  function Authenticate(header: Option<string>, verify: string -> Option<ObjectId>): (r: AuthResult)
    ensures r.Rejected? ==> r.status == StatusUnauthorized || r.status == StatusForbidden
    ensures r.Rejected? && r.status == StatusUnauthorized <==> BearerToken(header).None?
    ensures r.Authenticated? ==> verify(BearerToken(header).value) == Some(r.caller)
    ensures BearerToken(header).Some? && verify(BearerToken(header).value).Some? ==>
      r == Authenticated(verify(BearerToken(header).value).value)
  {
    match BearerToken(header)
    case None => Rejected(StatusUnauthorized)
    case Some(token) =>
      match verify(token)
      case None => Rejected(StatusForbidden)
      case Some(id) => Authenticated(id)
  }

  /** A missing header, or one without a space, gets 401. */
  lemma NoSpaceUnauthorized(header: Option<string>, verify: string -> Option<ObjectId>)
    requires header.Some? ==> ' ' !in header.value
    ensures Authenticate(header, verify) == Rejected(StatusUnauthorized)
  {
  }

  /** A header whose piece after the first space is empty (it ends in that
      space, or a second space follows at once) gets 401. */
  lemma EmptyTokenUnauthorized(scheme: string, rest: string, verify: string -> Option<ObjectId>)
    requires ' ' !in scheme
    ensures Authenticate(Some(scheme + " "), verify) == Rejected(StatusUnauthorized)
    ensures Authenticate(Some(scheme + "  " + rest), verify) == Rejected(StatusUnauthorized)
  {
    SplitAtFirstSpace(scheme, "");
    assert Split("") == [""];
    assert scheme + " " + "" == scheme + " ";
    SplitAtFirstSpace(scheme, " " + rest);
    SplitAtFirstSpace("", rest);
    assert "" + " " + rest == " " + rest;
    assert scheme + " " + (" " + rest) == scheme + "  " + rest;
  }

  /** A header `<scheme> <token>`, optionally followed by a space and more
      text, yields `token`. */
  lemma TokenExtracted(scheme: string, token: string, rest: string)
    requires ' ' !in scheme && ' ' !in token && token != ""
    ensures BearerToken(Some(scheme + " " + token)) == Some(token)
    ensures BearerToken(Some(scheme + " " + token + " " + rest)) == Some(token)
  {
    var short := scheme + " " + token;
    SplitAtFirstSpace(scheme, token);
    SplitNoSpace(token);
    assert Split(short) == [scheme, token];
    var long := scheme + " " + token + " " + rest;
    assert long == scheme + " " + (token + " " + rest);
    SplitAtFirstSpace(scheme, token + " " + rest);
    SplitAtFirstSpace(token, rest);
    assert Split(long) == [scheme, token] + Split(rest);
    assert Split(long)[1] == token;
  }

  /** Once a token is extracted, from a header of any shape, a failed
      verification gets 403, and otherwise the id in the token's claim
      becomes the caller. */
  lemma TokenVerified(header: Option<string>, token: string, verify: string -> Option<ObjectId>)
    requires BearerToken(header) == Some(token)
    ensures verify(token).None? ==> Authenticate(header, verify) == Rejected(StatusForbidden)
    ensures verify(token).Some? ==> Authenticate(header, verify) == Authenticated(verify(token).value)
  {
  }
}

=== FILE: database.dfy ===
/** The abstract store behind the handlers: the user and event collections,
    keyed by document id, and the library calls the handlers make, taken as
    given functions. */
module Database {
  import opened JsValues
  import opened RefLists
  import UserSchema
  import EventSchema

  type User = UserSchema.User
  type Event = EventSchema.Event

  datatype Store = Store(users: map<ObjectId, User>, events: map<ObjectId, Event>)

  /** A handler's outcome: the status it answers with and the store after it. */
  datatype Response = Response(status: int, store: Store)

  /** The collaborators the handlers call into:
      - `cast`: the cast Mongoose applies to a string used as an ObjectId,
        in a query or in a value written to a reference array. It gives the
        id in its stored form, or None when the string is not an ObjectId;
        `mongoose.Types.ObjectId.isValid(s)` is `cast(s).Some?`. The cast
        may change the string: bson accepts upper-case hex digits and
        stores them in lower case;
      - `hash`: `bcrypt.hash` with cost 10;
      - `matches(plain, hashed)`: `bcrypt.compare`;
      - `verify`: `jwt.verify` with the server secret, giving the token's
        `userId` claim, or None when the signature or expiry check fails;
      - `dropsUndefinedFilterKeys`: whether a query filter key whose value
        is `undefined` is removed (the filter then matches every document)
        rather than sent as `null`. */
  datatype Services = Services(
    cast: string -> Option<ObjectId>,
    hash: string -> string,
    matches: (string, string) -> bool,
    verify: string -> Option<ObjectId>,
    dropsUndefinedFilterKeys: bool)

  /** Casts every id of an array written to a reference path: the ids in
      stored form, or None when some id does not cast, which makes the
      update throw before anything is written. */
  function CastAll(svc: Services, ids: seq<string>): (r: Option<seq<ObjectId>>)
    ensures r.Some? <==> forall i :: 0 <= i < |ids| ==> svc.cast(ids[i]).Some?
    ensures r.Some? ==> |r.value| == |ids| && forall i :: 0 <= i < |ids| ==> svc.cast(ids[i]) == Some(r.value[i])
  {
    if ids == [] then Some([])
    else
      match (svc.cast(ids[0]), CastAll(svc, ids[1..]))
      case (Some(id), Some(rest)) => Some([id] + rest)
      case _ => None
  }

  /** Ids already in stored form come through the cast unchanged. */
  lemma CastAllStoredForm(svc: Services, ids: seq<ObjectId>)
    requires forall i :: 0 <= i < |ids| ==> svc.cast(ids[i]) == Some(ids[i])
    ensures CastAll(svc, ids) == Some(ids)
  {
    var r := CastAll(svc, ids);
    assert r.Some?;
    forall i | 0 <= i < |ids|
      ensures r.value[i] == ids[i]
    {
      assert svc.cast(ids[i]) == Some(r.value[i]);
    }
    assert r.value == ids;
  }

  /** A MongoDB transaction: the store it started from and the writes made
      inside it so far. Aborting gives back the start, committing the writes. */
  datatype Session = Session(start: Store, writes: Store)
  {
    function Abort(): Store { start }
    function Commit(): Store { writes }
  }

  function StartTransaction(st: Store): Session
  {
    Session(st, st)
  }

  /** Whether some user's email is `email`. */
  predicate EmailInUse(st: Store, email: string)
  {
    exists id :: id in st.users && st.users[id].email == email
  }

  /** Whether a user other than `id` has email `email`. */
  predicate EmailHeldByOther(st: Store, id: ObjectId, email: string)
  {
    exists other :: other in st.users && other != id && st.users[other].email == email
  }

  /** `st'` differs from `st` at most in the document of user `id`. */
  predicate OnlyUserChanged(st: Store, st': Store, id: ObjectId)
  {
    && st'.events == st.events
    && st'.users.Keys == st.users.Keys
    && forall other :: other in st.users && other != id ==> st'.users[other] == st.users[other]
  }

  /** Replaces the document of user `id`; `findByIdAndUpdate` on a missing id
      matches nothing and leaves the collection as it is. */
  function UpdateUser(st: Store, id: ObjectId, u: User): (st': Store)
    ensures id in st.users ==> st'.users == st.users[id := u] && st'.events == st.events
    ensures id !in st.users ==> st' == st
  {
    if id in st.users then st.(users := st.users[id := u]) else st
  }

  // ----- Invariants the handlers keep -----

  /** Every stored document passes its schema validation. */
  predicate DocumentsValid(st: Store)
  {
    && (forall id :: id in st.users ==> UserSchema.PassesValidation(st.users[id]))
    && (forall id :: id in st.events ==> EventSchema.PassesValidation(st.events[id]))
  }

  /** The unique index on `email`: no two users share an email. */
  predicate EmailsUnique(st: Store)
  {
    forall a, b :: a in st.users && b in st.users && a != b ==> st.users[a].email != st.users[b].email
  }

  /** No reference array holds an id twice. */
  predicate NoRepeatedReferences(st: Store)
  {
    && (forall id :: id in st.users ==> NoDups(st.users[id].attending))
    && (forall id :: id in st.users ==> NoDups(st.users[id].followers))
    && (forall id :: id in st.users ==> NoDups(st.users[id].following))
    && (forall id :: id in st.events ==> NoDups(st.events[id].attendees))
  }

  /** No user follows themselves. This is not part of Consistent: the
      follow route compares the raw path id with the caller's id before
      casting it, so a path id that casts to the caller's own id gets past
      the check (`Invariants.FollowSelfEdge`). */
  predicate NoSelfFollow(st: Store)
  {
    forall id :: id in st.users ==> id !in st.users[id].followers && id !in st.users[id].following
  }

  /** Between stored users, `a` is among `b`'s followers exactly when `b` is
      among `a`'s following. */
  predicate FollowsMirrored(st: Store)
  {
    forall a, b :: a in st.users && b in st.users ==>
      (a in st.users[b].followers <==> b in st.users[a].following)
  }

  /** Between a stored user and a stored event, the user is among the event's
      attendees exactly when the event is among the user's `attending`. */
  predicate AttendanceMirrored(st: Store)
  {
    forall u, e :: u in st.users && e in st.events ==>
      (u in st.events[e].attendees <==> e in st.users[u].attending)
  }

  predicate Consistent(st: Store)
  {
    && DocumentsValid(st)
    && EmailsUnique(st)
    && NoRepeatedReferences(st)
    && FollowsMirrored(st)
    && AttendanceMirrored(st)
  }

  /** No document refers to `id`: a freshly generated ObjectId. */
  predicate Unreferenced(st: Store, id: ObjectId)
  {
    && (forall u :: u in st.users ==> id !in st.users[u].followers && id !in st.users[u].following)
    && (forall e :: e in st.events ==> id !in st.events[e].attendees)
  }
}

=== FILE: event_schema.dfy ===
/** The Event document of the event collection. */
module EventSchema {
  import opened JsValues
  import opened RefLists

  /** The `location` sub-document of an event; all three paths are required. */
  datatype EventLocation = EventLocation(city: string, state: string, country: string)

  /** One event document. `createdBy` is the id of the creating User and
      `attendees` a plain array of User ids. Required paths of a non-string
      type (the two dates and `createdBy`) are always present in this
      representation. */
  datatype Event = Event(
    eventName: string,
    shortDescription: string,
    locationName: string,
    venueLocation: string,
    startTime: Date,
    endTime: Date,
    eventCategory: string,
    createdBy: ObjectId,
    attendees: seq<ObjectId>,
    location: EventLocation)

  /** The validation Mongoose runs when an event is saved: every required
      string path holds a non-empty string. */
  predicate PassesValidation(e: Event)
  {
    && e.eventName != ""
    && e.shortDescription != ""
    && e.locationName != ""
    && e.venueLocation != ""
    && e.eventCategory != ""
    && e.location.city != ""
    && e.location.state != ""
    && e.location.country != ""
  }

  /** Validation looks at the required paths only: an event that passes keeps
      passing whatever its `attendees` array holds, repeats included. */
  lemma AttendeesDoNotAffectValidation(e: Event, attendees: seq<ObjectId>)
    requires PassesValidation(e)
    ensures PassesValidation(e.(attendees := attendees))
  {
  }

  /** The schema puts no uniqueness constraint on `attendees`. */
  lemma SchemaAllowsRepeatedAttendees()
    ensures exists e :: PassesValidation(e) && !NoDups(e.attendees)
  {
    var e := Event("n", "d", "l", "v", 0, 1, "c", "u", ["a", "a"], EventLocation("x", "y", "z"));
    assert multiset(e.attendees)["a"] == 2;
    assert PassesValidation(e) && !NoDups(e.attendees);
  }
}

=== FILE: http.dfy ===
/** The HTTP status codes the handlers answer with. */
module Http {
  const StatusOk := 200
  const StatusCreated := 201
  const StatusBadRequest := 400
  const StatusUnauthorized := 401
  const StatusForbidden := 403
  const StatusNotFound := 404
  const StatusConflict := 409
  const StatusServerError := 500
}

=== FILE: invariants.dfy ===
/** Every handler keeps the store Consistent: documents valid, emails unique,
    no repeated references, and both kinds of edge recorded on both sides.
    `/create-profile` does so only for a body that leaves the credentials
    non-empty and names no reference array; follow keeps the absence of
    self-follows only for a path id that does not cast to the caller. */
module Invariants {
  import Accounts
  import Rsvp
  import Social
  import UserSchema
  import EventSchema
  import opened JsValues
  import opened RefLists
  import opened Http
  import opened Database

  // ----- Edits of one user's own paths (the settings handlers) -----

  /** `st'` differs from `st` only in paths of user `id` that no invariant
      other than validation and email uniqueness looks at. */
  predicate OwnPathsEdit(st: Store, st': Store, id: ObjectId)
  {
    && OnlyUserChanged(st, st', id) && id in st.users
    && st'.users[id].attending == st.users[id].attending
    && st'.users[id].followers == st.users[id].followers
    && st'.users[id].following == st.users[id].following
  }

  lemma OwnPathsEditKeepsRelations(st: Store, st': Store, id: ObjectId)
    requires OwnPathsEdit(st, st', id)
    requires NoRepeatedReferences(st) && FollowsMirrored(st) && AttendanceMirrored(st)
    ensures NoRepeatedReferences(st') && FollowsMirrored(st') && AttendanceMirrored(st')
  {
    assert forall u :: u in st.users ==> st'.users[u].attending == st.users[u].attending;
    assert forall u :: u in st.users ==> st'.users[u].followers == st.users[u].followers;
    assert forall u :: u in st.users ==> st'.users[u].following == st.users[u].following;
  }

  lemma OwnPathsEditKeepsEmailsUnique(st: Store, st': Store, id: ObjectId)
    requires OwnPathsEdit(st, st', id) && EmailsUnique(st)
    requires !EmailHeldByOther(st, id, st'.users[id].email)
    ensures EmailsUnique(st')
  {
  }

  /** A change to one user's own paths keeps the store Consistent when the
      new document validates and its email is held by no one else. */
  lemma OwnPathsEditKeepsConsistent(st: Store, st': Store, id: ObjectId)
    requires Consistent(st) && OwnPathsEdit(st, st', id)
    requires UserSchema.PassesValidation(st'.users[id])
    requires !EmailHeldByOther(st, id, st'.users[id].email)
    ensures Consistent(st')
  {
    OwnPathsEditKeepsRelations(st, st', id);
    OwnPathsEditKeepsEmailsUnique(st, st', id);
  }

  /** A `/create-profile` body that names no reference array and gives no
      empty email or password. */
  predicate LeavesRelationsAlone(patch: Accounts.ProfilePatch)
  {
    && patch.attending.None? && patch.followers.None? && patch.following.None?
    && (patch.email.Some? ==> patch.email.value != "")
    && (patch.password.Some? ==> patch.password.value != "")
  }

  lemma CreateProfileKeepsConsistent(st: Store, svc: Services, caller: ObjectId, patch: Accounts.ProfilePatch)
    requires Consistent(st) && LeavesRelationsAlone(patch)
    ensures Consistent(Accounts.CreateProfile(st, svc, caller, patch).store)
  {
    var r := Accounts.CreateProfile(st, svc, caller, patch);
    if r.status == StatusOk {
      assert OwnPathsEdit(st, r.store, caller);
      OwnPathsEditKeepsConsistent(st, r.store, caller);
    }
  }

  /** Any other body can break consistency: a body whose `followers` names
      the caller twice is accepted with 200, and the caller's followers
      then repeat an id. */
  lemma CreateProfileCanBreakConsistency(st: Store, svc: Services, caller: ObjectId)
    requires Consistent(st) && caller in st.users && svc.cast(caller) == Some(caller)
    ensures var r := Accounts.CreateProfile(st, svc, caller, Accounts.NoFields().(followers := Some([caller, caller])));
      r.status == StatusOk && !Consistent(r.store)
  {
    CastAllStoredForm(svc, [caller, caller]);
    var r := Accounts.CreateProfile(st, svc, caller, Accounts.NoFields().(followers := Some([caller, caller])));
    assert r.store.users[caller].followers == [caller, caller];
    assert multiset(r.store.users[caller].followers)[caller] == 2;
  }

  lemma GeneralSettingsKeepsConsistent(st: Store, caller: ObjectId, email: Option<string>, phone: Option<string>)
    requires Consistent(st)
    ensures Consistent(Accounts.GeneralSettings(st, caller, email, phone).store)
  {
    var r := Accounts.GeneralSettings(st, caller, email, phone);
    if r.status == StatusOk {
      assert OwnPathsEdit(st, r.store, caller);
      OwnPathsEditKeepsConsistent(st, r.store, caller);
    }
  }

  lemma SecuritySettingsKeepsConsistent(st: Store, svc: Services, caller: ObjectId, currentPassword: Option<string>, newPassword: Option<string>)
    requires Consistent(st)
    ensures Consistent(Accounts.SecuritySettings(st, svc, caller, currentPassword, newPassword).store)
  {
    var r := Accounts.SecuritySettings(st, svc, caller, currentPassword, newPassword);
    if r.status == StatusOk {
      assert OwnPathsEdit(st, r.store, caller);
      assert r.store.users[caller].email == st.users[caller].email;
      OwnPathsEditKeepsConsistent(st, r.store, caller);
    }
  }

  // ----- Registration -----

  lemma RegisterKeepsConsistent(st: Store, svc: Services, email: Option<string>, password: Option<string>, newId: ObjectId)
    requires newId !in st.users && Consistent(st) && Unreferenced(st, newId)
    ensures Consistent(Accounts.Register(st, svc, email, password, newId).store)
  {
    var r := Accounts.Register(st, svc, email, password, newId);
    if r.status == StatusCreated {
      var u := r.store.users[newId];
      assert u == UserSchema.NewUser(email.value, svc.hash(password.value));
      assert !EmailInUse(st, email.value);
      assert EmailsUnique(r.store);
      assert NoRepeatedReferences(r.store);
      assert FollowsMirrored(r.store);
      assert AttendanceMirrored(r.store);
    }
  }

  // ----- Follow edges -----

  /** `st'` has the same documents as `st`, except that user documents may
      differ in `followers` and `following`. */
  predicate OnlyFollowListsChanged(st: Store, st': Store)
  {
    && st'.events == st.events
    && st'.users.Keys == st.users.Keys
    && forall id :: id in st.users ==>
         st'.users[id] == st.users[id].(followers := st'.users[id].followers, following := st'.users[id].following)
  }

  /** `st'` is `st` with the edge from `caller` to `target` recorded
      (`present`) or erased (`!present`) on whichever side exists, and no
      other membership in a follow list changed. */
  ghost predicate FollowEdgeSet(st: Store, st': Store, caller: ObjectId, target: ObjectId, present: bool)
  {
    && OnlyFollowListsChanged(st, st')
    && (forall id, y :: id in st.users ==>
          (y in st'.users[id].followers <==> if id == target && y == caller then present else y in st.users[id].followers))
    && (forall id, y :: id in st.users ==>
          (y in st'.users[id].following <==> if id == caller && y == target then present else y in st.users[id].following))
  }

  /** Changing only follow lists keeps every part of Consistent that does not
      mention them. */
  lemma FollowListsFrame(st: Store, st': Store)
    requires Consistent(st) && OnlyFollowListsChanged(st, st')
    ensures DocumentsValid(st') && EmailsUnique(st') && AttendanceMirrored(st')
    ensures forall id :: id in st'.users ==> NoDups(st'.users[id].attending)
    ensures forall id :: id in st'.events ==> NoDups(st'.events[id].attendees)
  {
  }

  lemma FollowEdgeKeepsNoSelfFollow(st: Store, st': Store, caller: ObjectId, target: ObjectId, present: bool)
    requires caller != target && NoSelfFollow(st) && FollowEdgeSet(st, st', caller, target, present)
    ensures NoSelfFollow(st')
  {
  }

  lemma FollowEdgeKeepsMirror(st: Store, st': Store, caller: ObjectId, target: ObjectId, present: bool)
    requires FollowsMirrored(st) && FollowEdgeSet(st, st', caller, target, present)
    ensures FollowsMirrored(st')
  {
  }

  lemma FollowEdgeKeepsConsistent(st: Store, st': Store, caller: ObjectId, target: ObjectId, present: bool)
    requires Consistent(st) && FollowEdgeSet(st, st', caller, target, present)
    requires forall id :: id in st'.users ==> NoDups(st'.users[id].followers) && NoDups(st'.users[id].following)
    ensures Consistent(st')
  {
    FollowListsFrame(st, st');
    FollowEdgeKeepsMirror(st, st', caller, target, present);
  }

  lemma FollowChangesOnlyFollowLists(st: Store, svc: Services, caller: ObjectId, target: string)
    requires caller != target && svc.cast(target).Some?
    ensures OnlyFollowListsChanged(st, Social.Follow(st, svc, caller, target).store)
  {
  }

  lemma UnfollowChangesOnlyFollowLists(st: Store, svc: Services, caller: ObjectId, target: string)
    requires caller != target && svc.cast(target).Some?
    ensures OnlyFollowListsChanged(st, Social.Unfollow(st, svc, caller, target).store)
  {
  }

  lemma FollowSetsEdge(st: Store, svc: Services, caller: ObjectId, target: string)
    requires caller != target && svc.cast(target).Some?
    requires forall id :: id in st.users ==> NoDups(st.users[id].followers) && NoDups(st.users[id].following)
    ensures var st' := Social.Follow(st, svc, caller, target).store;
      && FollowEdgeSet(st, st', caller, svc.cast(target).value, true)
      && forall id :: id in st'.users ==> NoDups(st'.users[id].followers) && NoDups(st'.users[id].following)
  {
    var t := svc.cast(target).value;
    var st' := Social.Follow(st, svc, caller, target).store;
    FollowChangesOnlyFollowLists(st, svc, caller, target);
    forall id, y | id in st.users
      ensures y in st'.users[id].followers <==> if id == t && y == caller then true else y in st.users[id].followers
      ensures y in st'.users[id].following <==> if id == caller && y == t then true else y in st.users[id].following
    {
      if id == t {
        AddToSetMembers(st.users[id].followers, caller, y);
      }
      if id == caller {
        AddToSetMembers(st.users[id].following, t, y);
      }
    }
    forall id | id in st'.users
      ensures NoDups(st'.users[id].followers) && NoDups(st'.users[id].following)
    {
      if id == t {
        AddToSetKeepsNoDups(st.users[id].followers, caller);
      }
      if id == caller {
        AddToSetKeepsNoDups(st.users[id].following, t);
      }
    }
  }

  lemma UnfollowErasesEdge(st: Store, svc: Services, caller: ObjectId, target: string)
    requires caller != target && svc.cast(target).Some?
    requires forall id :: id in st.users ==> NoDups(st.users[id].followers) && NoDups(st.users[id].following)
    ensures var st' := Social.Unfollow(st, svc, caller, target).store;
      && FollowEdgeSet(st, st', caller, svc.cast(target).value, false)
      && forall id :: id in st'.users ==> NoDups(st'.users[id].followers) && NoDups(st'.users[id].following)
  {
    var t := svc.cast(target).value;
    var st' := Social.Unfollow(st, svc, caller, target).store;
    UnfollowChangesOnlyFollowLists(st, svc, caller, target);
    forall id, y | id in st.users
      ensures y in st'.users[id].followers <==> if id == t && y == caller then false else y in st.users[id].followers
      ensures y in st'.users[id].following <==> if id == caller && y == t then false else y in st.users[id].following
    {
      if id == t {
        PullMembers(st.users[id].followers, caller, y);
      }
      if id == caller {
        PullMembers(st.users[id].following, t, y);
      }
    }
    forall id | id in st'.users
      ensures NoDups(st'.users[id].followers) && NoDups(st'.users[id].following)
    {
      if id == t {
        PullKeepsNoDups(st.users[id].followers, caller);
      }
      if id == caller {
        PullKeepsNoDups(st.users[id].following, t);
      }
    }
  }

  lemma FollowKeepsConsistent(st: Store, svc: Services, caller: ObjectId, target: string)
    requires Consistent(st)
    ensures Consistent(Social.Follow(st, svc, caller, target).store)
  {
    if caller != target && svc.cast(target).Some? {
      FollowSetsEdge(st, svc, caller, target);
      FollowEdgeKeepsConsistent(st, Social.Follow(st, svc, caller, target).store, caller, svc.cast(target).value, true);
    }
  }

  lemma UnfollowKeepsConsistent(st: Store, svc: Services, caller: ObjectId, target: string)
    requires Consistent(st)
    ensures Consistent(Social.Unfollow(st, svc, caller, target).store)
  {
    if caller != target && svc.cast(target).Some? {
      UnfollowErasesEdge(st, svc, caller, target);
      FollowEdgeKeepsConsistent(st, Social.Unfollow(st, svc, caller, target).store, caller, svc.cast(target).value, false);
    }
  }

  /** A fresh id is not guaranteed to be unreferenced: following a missing
      id answers 404 yet records the id in the caller's `following`, on a
      store that stays Consistent. Registering a user under that id then
      breaks the follow mirror. */
  lemma FollowOfMissingIdReferencesIt(st: Store, svc: Services, caller: ObjectId, target: string,
                                      email: Option<string>, password: Option<string>)
    requires Consistent(st) && caller in st.users && caller != target
    requires svc.cast(target).Some? && svc.cast(target).value !in st.users
    ensures var t := svc.cast(target).value;
      var r := Social.Follow(st, svc, caller, target);
      && r.status == StatusNotFound && Consistent(r.store) && !Unreferenced(r.store, t)
      && (Accounts.Register(r.store, svc, email, password, t).status == StatusCreated ==>
            !Consistent(Accounts.Register(r.store, svc, email, password, t).store))
  {
    var t := svc.cast(target).value;
    var st1 := Social.Follow(st, svc, caller, target).store;
    FollowKeepsConsistent(st, svc, caller, target);
    var r := Accounts.Register(st1, svc, email, password, t);
    if r.status == StatusCreated {
      assert t in r.store.users[caller].following;
      assert r.store.users[t].followers == [];
      assert !FollowsMirrored(r.store);
    }
  }

  /** Follow keeps every user from following themselves exactly when it is
      not handed a path id that differs from the caller's id yet casts to
      it while the caller exists. */
  lemma FollowSelfEdge(st: Store, svc: Services, caller: ObjectId, target: string)
    requires Consistent(st) && NoSelfFollow(st)
    ensures NoSelfFollow(Social.Follow(st, svc, caller, target).store) <==>
      !(caller != target && svc.cast(target) == Some(caller) && caller in st.users)
  {
    var st' := Social.Follow(st, svc, caller, target).store;
    if caller != target && svc.cast(target) == Some(caller) && caller in st.users {
      Social.CaseVariantSelfFollow(st, svc, caller, target);
    } else if caller != target && svc.cast(target).Some? && svc.cast(target).value != caller {
      FollowSetsEdge(st, svc, caller, target);
      FollowEdgeKeepsNoSelfFollow(st, st', caller, svc.cast(target).value, true);
    } else {
      assert st' == st;
    }
  }

  // ----- Attendance edges -----

  /** `st'` is `st` with `caller` appended to the attendees of `eventId` and
      `eventId` recorded in the caller's `attending`, nothing else changed. */
  predicate AttendanceEdgeAdded(st: Store, st': Store, caller: ObjectId, eventId: ObjectId)
  {
    && caller in st.users && eventId in st.events
    && st'.users.Keys == st.users.Keys && st'.events.Keys == st.events.Keys
    && (forall id :: id in st.users && id != caller ==> st'.users[id] == st.users[id])
    && (forall id :: id in st.events && id != eventId ==> st'.events[id] == st.events[id])
    && st'.users[caller] == st.users[caller].(attending := AddToSet(st.users[caller].attending, eventId))
    && st'.events[eventId] == st.events[eventId].(attendees := st.events[eventId].attendees + [caller])
    && caller !in st.events[eventId].attendees
  }

  lemma AttendanceEdgeKeepsUsers(st: Store, st': Store, caller: ObjectId, eventId: ObjectId)
    requires AttendanceEdgeAdded(st, st', caller, eventId)
    requires Consistent(st)
    ensures (forall id :: id in st'.users ==> UserSchema.PassesValidation(st'.users[id]))
    ensures EmailsUnique(st') && FollowsMirrored(st')
    ensures forall id :: id in st'.users ==> NoDups(st'.users[id].attending)
    ensures forall id :: id in st'.users ==> NoDups(st'.users[id].followers) && NoDups(st'.users[id].following)
  {
    AddToSetKeepsNoDups(st.users[caller].attending, eventId);
    forall u | u in st.users
      ensures st'.users[u].followers == st.users[u].followers
      ensures st'.users[u].following == st.users[u].following
      ensures st'.users[u].email == st.users[u].email
      ensures st'.users[u].password == st.users[u].password
      ensures NoDups(st'.users[u].attending)
    {
    }
    assert EmailsUnique(st');
    assert FollowsMirrored(st');
  }

  lemma AttendanceEdgeKeepsEvents(st: Store, st': Store, caller: ObjectId, eventId: ObjectId)
    requires AttendanceEdgeAdded(st, st', caller, eventId)
    requires DocumentsValid(st) && NoRepeatedReferences(st)
    ensures forall id :: id in st'.events ==> EventSchema.PassesValidation(st'.events[id]) && NoDups(st'.events[id].attendees)
  {
  }

  lemma AttendanceEdgeKeepsMirror(st: Store, st': Store, caller: ObjectId, eventId: ObjectId)
    requires AttendanceEdgeAdded(st, st', caller, eventId)
    requires AttendanceMirrored(st)
    ensures AttendanceMirrored(st')
  {
  }

  lemma RsvpKeepsConsistent(st: Store, svc: Services, caller: ObjectId, eventId: string)
    requires Consistent(st)
    ensures Consistent(Rsvp.Rsvp(st, svc, caller, eventId).store)
  {
    var r := Rsvp.Rsvp(st, svc, caller, eventId);
    if r.status == StatusOk {
      var e := svc.cast(eventId).value;
      assert AttendanceEdgeAdded(st, r.store, caller, e);
      AttendanceEdgeKeepsUsers(st, r.store, caller, e);
      AttendanceEdgeKeepsEvents(st, r.store, caller, e);
      AttendanceEdgeKeepsMirror(st, r.store, caller, e);
    }
  }
}

=== FILE: js_strings.dfy ===
/** JavaScript's `String.prototype.split(' ')`, the one string operation the
    bearer-token extraction relies on. */
module JsStrings {

  /** Concatenates `parts`, putting one space between neighbours. */
  function Join(parts: seq<string>): string
  {
    if |parts| == 0 then ""
    else if |parts| == 1 then parts[0]
    else parts[0] + " " + Join(parts[1..])
  }

  /** `s.split(' ')`: the pieces of `s` between single spaces. Splitting never
      yields an empty list, no piece holds a space, and joining the pieces
      with spaces gives `s` back. Consecutive spaces give empty pieces. */
  function Split(s: string): (parts: seq<string>)
    ensures |parts| >= 1
    ensures forall i :: 0 <= i < |parts| ==> ' ' !in parts[i]
    ensures Join(parts) == s
    decreases |s|
  {
    if |s| == 0 then [""]
    else
      var rest := Split(s[1..]);
      if s[0] == ' ' then
        assert s == " " + s[1..];
        [""] + rest
      else
        var parts := [[s[0]] + rest[0]] + rest[1..];
        assert parts[1..] == rest[1..];
        parts
  }

  /** A string without spaces splits into itself alone. */
  lemma SplitNoSpace(w: string)
    requires ' ' !in w
    ensures Split(w) == [w]
  {
  }

  /** A space-free prefix followed by a space is split off as the first piece. */
  lemma {:induction false} SplitAtFirstSpace(p: string, rest: string)
    requires ' ' !in p
    ensures Split(p + " " + rest) == [p] + Split(rest)
    decreases |p|
  {
    var s := p + " " + rest;
    if |p| == 0 {
      assert s[1..] == rest;
    } else {
      assert s[1..] == p[1..] + " " + rest;
      SplitAtFirstSpace(p[1..], rest);
      assert [p[0]] + p[1..] == p;
    }
  }

  /** The contract of Split determines it: any space-free pieces that join to
      `s` are exactly `Split(s)`. */
  lemma {:induction false} SplitUnique(s: string, parts: seq<string>)
    requires |parts| >= 1
    requires forall i :: 0 <= i < |parts| ==> ' ' !in parts[i]
    requires Join(parts) == s
    ensures parts == Split(s)
    decreases |parts|
  {
    if |parts| == 1 {
      SplitNoSpace(parts[0]);
    } else {
      SplitUnique(Join(parts[1..]), parts[1..]);
      SplitAtFirstSpace(parts[0], Join(parts[1..]));
      assert [parts[0]] + parts[1..] == parts;
    }
  }
}

=== FILE: js_values.dfy ===
/** Values as the handlers receive them from a parsed JSON request body, a
    path parameter or a token claim. */
module JsValues {

  /** A body field that may be absent (`undefined`). */
  datatype Option<+T> = None | Some(value: T)

  /** A JavaScript Date, as milliseconds since the epoch. */
  type Date = int

  /** The hex-string form of a MongoDB ObjectId, the form in which ids travel
      through path parameters, token claims and reference arrays. */
  type ObjectId = string

  /** JavaScript truthiness of a body field holding a string or `undefined`:
      `undefined` and the empty string are falsy, every other string is truthy. */
  predicate Truthy(v: Option<string>)
  {
    v.Some? && v.value != ""
  }
}

=== FILE: ref_lists.dfy ===
/** The array-of-references fields of the documents (`attending`, `followers`,
    `following`, `attendees`) and the two MongoDB update operators the
    handlers apply to them. */
module RefLists {
  import opened JsValues

  /** No element occurs twice. The schemas allow repeated references; only
      handler logic keeps them out. */
  predicate NoDups(l: seq<ObjectId>)
  {
    forall x :: x in l ==> multiset(l)[x] <= 1
  }

  /** `$addToSet`: appends `x` when no element equals it, and otherwise leaves
      the array as it is. Existing elements keep their order and `x` ends up
      present. */
  function AddToSet(l: seq<ObjectId>, x: ObjectId): (r: seq<ObjectId>)
    ensures x in r
    ensures |r| == if x in l then |l| else |l| + 1
    ensures r[..|l|] == l
    ensures multiset(r)[x] == if x in l then multiset(l)[x] else 1
    ensures forall y :: y != x ==> multiset(r)[y] == multiset(l)[y]
  {
    if x in l then l else l + [x]
  }

  /** `$pull` with a value: removes every element equal to `x` and keeps every
      other element as often as it occurred. */
  function Pull(l: seq<ObjectId>, x: ObjectId): (r: seq<ObjectId>)
    ensures multiset(r) == multiset(l)[x := 0]
    ensures x !in r
    ensures |r| <= |l|
    decreases |l|
  {
    if |l| == 0 then []
    else
      assert l == [l[0]] + l[1..];
      if l[0] == x then Pull(l[1..], x)
      else [l[0]] + Pull(l[1..], x)
  }

  /** Pulling a value that is absent changes nothing. */
  lemma {:induction false} PullAbsent(l: seq<ObjectId>, x: ObjectId)
    requires x !in l
    ensures Pull(l, x) == l
    decreases |l|
  {
    if |l| > 0 {
      PullAbsent(l[1..], x);
      assert [l[0]] + l[1..] == l;
    }
  }

  /** Pulling distributes over concatenation. */
  lemma {:induction false} PullAppend(a: seq<ObjectId>, b: seq<ObjectId>, x: ObjectId)
    ensures Pull(a + b, x) == Pull(a, x) + Pull(b, x)
    decreases |a|
  {
    if |a| > 0 {
      assert (a + b)[1..] == a[1..] + b;
      PullAppend(a[1..], b, x);
    } else {
      assert a + b == b;
    }
  }

  /** `$pull` undoes a `$addToSet` that appended: starting from an array
      without `x`, adding `x` and then pulling it gives the array back. */
  lemma PullUndoesAddToSet(l: seq<ObjectId>, x: ObjectId)
    requires x !in l
    ensures Pull(AddToSet(l, x), x) == l
  {
    PullAppend(l, [x], x);
    PullAbsent(l, x);
    assert Pull([x], x) == Pull([x][1..], x);
    assert [x][1..] == [];
  }

  /** Membership after `$addToSet`: the old members and `x`. */
  lemma AddToSetMembers(l: seq<ObjectId>, x: ObjectId, y: ObjectId)
    ensures y in AddToSet(l, x) <==> y in l || y == x
  {
  }

  /** Membership after `$pull`: the old members other than `x`. */
  lemma PullMembers(l: seq<ObjectId>, x: ObjectId, y: ObjectId)
    ensures y in Pull(l, x) <==> y in l && y != x
  {
  }

  /** Both operators keep an array free of repeats. */
  lemma AddToSetKeepsNoDups(l: seq<ObjectId>, x: ObjectId)
    requires NoDups(l)
    ensures NoDups(AddToSet(l, x))
  {
  }

  lemma PullKeepsNoDups(l: seq<ObjectId>, x: ObjectId)
    requires NoDups(l)
    ensures NoDups(Pull(l, x))
  {
  }
}

=== FILE: rsvp.dfy ===
/** `/events/:eventId/rsvp` and the `hasRSVPed` flag of `/events`. */
module Rsvp {
  import opened JsValues
  import opened Http
  import opened RefLists
  import UserSchema
  import EventSchema
  import opened Database

  /** `/events/:eventId/rsvp`, run inside one transaction. An event id that
      is not an ObjectId gives 400 before the transaction starts; the event
      is then looked up by the cast id `e`. Inside the transaction, a
      missing event (404) or a caller already among the attendees (400,
      "Already RSVPed") aborts; otherwise the caller is appended to
      `attendees` and the event saved in the session, after which a missing
      caller (404) still aborts, discarding that write. `e` is then added to
      the caller's `attending` when absent and the transaction commits. A
      save that fails validation ends the request without committing (500). */
  function Rsvp(st: Store, svc: Services, caller: ObjectId, eventId: string): (r: Response)
    ensures r.status in {StatusOk, StatusBadRequest, StatusNotFound, StatusServerError}
    ensures r.status != StatusOk ==> r.store == st
    ensures svc.cast(eventId).None? ==> r.status == StatusBadRequest
    ensures svc.cast(eventId).Some? ==>
      var e := svc.cast(eventId).value;
      && (e !in st.events ==> r.status == StatusNotFound)
      && (e in st.events && caller in st.events[e].attendees ==> r.status == StatusBadRequest)
      && ((&& e in st.events && caller !in st.events[e].attendees
           && EventSchema.PassesValidation(st.events[e]) && caller !in st.users)
          ==> r.status == StatusNotFound)
    ensures r.status == StatusOk ==>
      && svc.cast(eventId).Some?
      && var e := svc.cast(eventId).value;
      && e in st.events && caller in st.users
      && caller !in st.events[e].attendees
      && r.store.events.Keys == st.events.Keys
      && r.store.users.Keys == st.users.Keys
      && r.store.events[e].attendees == st.events[e].attendees + [caller]
      && r.store.users[caller].attending == AddToSet(st.users[caller].attending, e)
      && (forall other :: other in st.events && other != e ==> r.store.events[other] == st.events[other])
      && (forall u :: u in st.users && u != caller ==> r.store.users[u] == st.users[u])
      && r.store.events[e] == st.events[e].(attendees := r.store.events[e].attendees)
      && r.store.users[caller] == st.users[caller].(attending := r.store.users[caller].attending)
  {
    match svc.cast(eventId)
    case None => Response(StatusBadRequest, st)
    case Some(e) =>
      var tx := StartTransaction(st);
      if e !in tx.writes.events then Response(StatusNotFound, tx.Abort())
      else
        var event := tx.writes.events[e];
        if caller in event.attendees then Response(StatusBadRequest, tx.Abort())
        else
          var event' := event.(attendees := event.attendees + [caller]);
          if !EventSchema.PassesValidation(event') then Response(StatusServerError, tx.Abort())
          else
            var tx := tx.(writes := tx.writes.(events := tx.writes.events[e := event']));
            if caller !in tx.writes.users then Response(StatusNotFound, tx.Abort())
            else
              var user := tx.writes.users[caller];
              if e in user.attending then Response(StatusOk, tx.Commit())
              else
                var user' := user.(attending := user.attending + [e]);
                if !UserSchema.PassesValidation(user') then Response(StatusServerError, tx.Abort())
                else
                  var tx := tx.(writes := tx.writes.(users := tx.writes.users[caller := user']));
                  Response(StatusOk, tx.Commit())
  }

  /** The `hasRSVPed` flag `/events` adds to each event, by event id. */
  function RsvpFlags(st: Store, caller: ObjectId): (flags: map<ObjectId, bool>)
    ensures flags.Keys == st.events.Keys
    ensures forall e :: e in flags ==> (flags[e] <==> caller in st.events[e].attendees)
  {
    map e | e in st.events :: caller in st.events[e].attendees
  }

  /** On an existing event whose saves validate, RSVP is refused with
      "Already RSVPed" exactly when `/events` already flags the caller as
      attending, and succeeds exactly when it does not and the caller
      exists. */
  lemma RsvpRefusedIffFlagged(st: Store, svc: Services, caller: ObjectId, eventId: string)
    requires svc.cast(eventId).Some? && svc.cast(eventId).value in st.events
    requires DocumentsValid(st)
    ensures var e := svc.cast(eventId).value;
      && (Rsvp(st, svc, caller, eventId).status == StatusBadRequest <==> RsvpFlags(st, caller)[e])
      && (Rsvp(st, svc, caller, eventId).status == StatusOk <==> !RsvpFlags(st, caller)[e] && caller in st.users)
  {
  }

  /** A successful RSVP makes `/events` flag the event for the caller and
      changes no other caller's flag on any event. */
  lemma RsvpSetsOnlyItsFlag(st: Store, svc: Services, caller: ObjectId, eventId: string)
    requires Rsvp(st, svc, caller, eventId).status == StatusOk
    ensures RsvpFlags(Rsvp(st, svc, caller, eventId).store, caller)[svc.cast(eventId).value]
    ensures forall other, e :: other != caller && e in st.events ==>
      RsvpFlags(Rsvp(st, svc, caller, eventId).store, other)[e] == RsvpFlags(st, other)[e]
  {
  }

  /** Repeating a successful RSVP is refused with "Already RSVPed", changes
      nothing, and leaves the caller among the attendees exactly once. */
  lemma RsvpTwiceRefused(st: Store, svc: Services, caller: ObjectId, eventId: string)
    requires Rsvp(st, svc, caller, eventId).status == StatusOk
    ensures var st' := Rsvp(st, svc, caller, eventId).store;
      && Rsvp(st', svc, caller, eventId) == Response(StatusBadRequest, st')
      && multiset(st'.events[svc.cast(eventId).value].attendees)[caller] == 1
  {
  }
}

=== FILE: server.dfy ===
/** The Express application: each state-changing route, with
    `authenticateToken` in front of every route except `/register`. */
module Server {
  import opened JsValues
  import opened Http
  import opened Database
  import Auth
  import Accounts
  import Rsvp
  import Social
  import Invariants

  /** One request to a state-changing route. `authorization` is the
      Authorization header; `newId` is the ObjectId MongoDB generates for a
      new user document. */
  datatype Request =
    | RegisterRequest(email: Option<string>, password: Option<string>, newId: ObjectId)
    | RsvpRequest(authorization: Option<string>, eventId: string)
    | FollowRequest(authorization: Option<string>, target: string)
    | UnfollowRequest(authorization: Option<string>, target: string)
    | CreateProfileRequest(authorization: Option<string>, patch: Accounts.ProfilePatch)
    | GeneralSettingsRequest(authorization: Option<string>, email: Option<string>, phone: Option<string>)
    | PrivacySettingsRequest(authorization: Option<string>)
    | SecuritySettingsRequest(authorization: Option<string>, currentPassword: Option<string>, newPassword: Option<string>)

  /** The handler a request reaches once the middleware has accepted it. */
  function Dispatch(st: Store, svc: Services, caller: ObjectId, req: Request): Response
    requires !req.RegisterRequest?
  {
    match req
    case RsvpRequest(_, eventId) => Rsvp.Rsvp(st, svc, caller, eventId)
    case FollowRequest(_, target) => Social.Follow(st, svc, caller, target)
    case UnfollowRequest(_, target) => Social.Unfollow(st, svc, caller, target)
    case CreateProfileRequest(_, patch) => Accounts.CreateProfile(st, svc, caller, patch)
    case GeneralSettingsRequest(_, email, phone) => Accounts.GeneralSettings(st, caller, email, phone)
    case PrivacySettingsRequest(_) => Accounts.PrivacySettings(st, caller)
    case SecuritySettingsRequest(_, current, next) => Accounts.SecuritySettings(st, svc, caller, current, next)
  }

  /** Serves one request: `/register` directly, every other route behind the
      middleware, which answers 401 or 403 itself without touching the store. */
  function Handle(st: Store, svc: Services, req: Request): (r: Response)
    requires req.RegisterRequest? ==> req.newId !in st.users
    ensures req.RegisterRequest? ==> r == Accounts.Register(st, svc, req.email, req.password, req.newId)
    ensures !req.RegisterRequest? && Auth.BearerToken(req.authorization).None? ==>
      r == Response(StatusUnauthorized, st)
    ensures !req.RegisterRequest? && Auth.BearerToken(req.authorization).Some?
            && svc.verify(Auth.BearerToken(req.authorization).value).None? ==>
      r == Response(StatusForbidden, st)
    ensures !req.RegisterRequest? && Auth.BearerToken(req.authorization).Some?
            && svc.verify(Auth.BearerToken(req.authorization).value).Some? ==>
      r == Dispatch(st, svc, svc.verify(Auth.BearerToken(req.authorization).value).value, req)
  {
    if req.RegisterRequest? then Accounts.Register(st, svc, req.email, req.password, req.newId)
    else
      match Auth.Authenticate(req.authorization, svc.verify)
      case Rejected(status) => Response(status, st)
      case Authenticated(caller) => Dispatch(st, svc, caller, req)
  }

  /** Every route keeps the store Consistent, given that a newly generated
      user id is referenced by no document and that a `/create-profile`
      body names no reference array and no empty email or password. */
  lemma HandleKeepsConsistent(st: Store, svc: Services, req: Request)
    requires Consistent(st)
    requires req.RegisterRequest? ==> req.newId !in st.users && Unreferenced(st, req.newId)
    requires req.CreateProfileRequest? ==> Invariants.LeavesRelationsAlone(req.patch)
    ensures Consistent(Handle(st, svc, req).store)
  {
    if req.RegisterRequest? {
      Invariants.RegisterKeepsConsistent(st, svc, req.email, req.password, req.newId);
    } else {
      match Auth.Authenticate(req.authorization, svc.verify)
      case Rejected(_) =>
      case Authenticated(caller) =>
        match req
        case RsvpRequest(_, eventId) => Invariants.RsvpKeepsConsistent(st, svc, caller, eventId);
        case FollowRequest(_, target) => Invariants.FollowKeepsConsistent(st, svc, caller, target);
        case UnfollowRequest(_, target) => Invariants.UnfollowKeepsConsistent(st, svc, caller, target);
        case CreateProfileRequest(_, patch) => Invariants.CreateProfileKeepsConsistent(st, svc, caller, patch);
        case GeneralSettingsRequest(_, email, phone) => Invariants.GeneralSettingsKeepsConsistent(st, caller, email, phone);
        case PrivacySettingsRequest(_) =>
        case SecuritySettingsRequest(_, current, next) => Invariants.SecuritySettingsKeepsConsistent(st, svc, caller, current, next);
    }
  }
}

=== FILE: social.dfy ===
/** Follow and unfollow, the `isFollowing` flag of `/user/:userId`, and the
    `/members` list. */
module Social {
  import opened JsValues
  import opened Http
  import opened RefLists
  import opened Database

  /** One `findByIdAndUpdate` with `$addToSet: { followers: follower }` on
      user `id`; a missing user matches nothing. */
  function AddFollower(st: Store, id: ObjectId, follower: ObjectId): Store
  {
    if id in st.users then UpdateUser(st, id, st.users[id].(followers := AddToSet(st.users[id].followers, follower)))
    else st
  }

  /** `$addToSet: { following: followee }` on user `id`. */
  function AddFollowing(st: Store, id: ObjectId, followee: ObjectId): Store
  {
    if id in st.users then UpdateUser(st, id, st.users[id].(following := AddToSet(st.users[id].following, followee)))
    else st
  }

  /** `$pull: { followers: follower }` on user `id`. */
  function PullFollower(st: Store, id: ObjectId, follower: ObjectId): Store
  {
    if id in st.users then UpdateUser(st, id, st.users[id].(followers := Pull(st.users[id].followers, follower)))
    else st
  }

  /** `$pull: { following: followee }` on user `id`. */
  function PullFollowing(st: Store, id: ObjectId, followee: ObjectId): Store
  {
    if id in st.users then UpdateUser(st, id, st.users[id].(following := Pull(st.users[id].following, followee)))
    else st
  }

  /** `/user/:userId/follow`. The self-follow check compares the raw path
      id with the caller's id (400). A target id that cannot be cast makes
      the first update throw (500) before anything is written. Otherwise
      two separate updates run on the cast id `t`, each committed on its
      own: the caller is added to the followers of `t`, then `t` to the
      caller's `following`; 404 is answered afterwards when either user was
      missing, without undoing the other update. A path id that differs
      from the caller's id but casts to it passes the check, and both
      updates then land on the caller's own document. */
  function Follow(st: Store, svc: Services, caller: ObjectId, target: string): (r: Response)
    ensures r.status in {StatusOk, StatusBadRequest, StatusNotFound, StatusServerError}
    ensures r.status == StatusBadRequest <==> caller == target
    ensures r.status == StatusServerError <==> caller != target && svc.cast(target).None?
    ensures r.status == StatusOk <==>
      caller != target && svc.cast(target).Some? && caller in st.users && svc.cast(target).value in st.users
    ensures r.status == StatusBadRequest || r.status == StatusServerError ==> r.store == st
    ensures r.store.events == st.events && r.store.users.Keys == st.users.Keys
    ensures forall id :: id in st.users && id != caller && svc.cast(target) != Some(id) ==> r.store.users[id] == st.users[id]
    ensures caller != target && svc.cast(target).Some? ==>
      var t := svc.cast(target).value;
      && (t in st.users ==> caller in r.store.users[t].followers)
      && (caller in st.users ==> t in r.store.users[caller].following)
      && (t != caller && t in st.users ==>
            r.store.users[t] == st.users[t].(followers := AddToSet(st.users[t].followers, caller)))
      && (t != caller && caller in st.users ==>
            r.store.users[caller] == st.users[caller].(following := AddToSet(st.users[caller].following, t)))
      && (t == caller && caller in st.users ==>
            r.store.users[caller] == st.users[caller].(followers := AddToSet(st.users[caller].followers, caller),
                                                       following := AddToSet(st.users[caller].following, caller)))
  {
    if caller == target then Response(StatusBadRequest, st)
    else
      match svc.cast(target)
      case None => Response(StatusServerError, st)
      case Some(t) =>
        var afterTarget := AddFollower(st, t, caller);
        var afterCaller := AddFollowing(afterTarget, caller, t);
        if t !in st.users || caller !in st.users then Response(StatusNotFound, afterCaller)
        else Response(StatusOk, afterCaller)
  }

  /** `/user/:userId/unfollow`: the same check and the same two separate
      updates as Follow, with `$pull` removing every occurrence instead of
      `$addToSet`. */
  function Unfollow(st: Store, svc: Services, caller: ObjectId, target: string): (r: Response)
    ensures r.status in {StatusOk, StatusBadRequest, StatusNotFound, StatusServerError}
    ensures r.status == StatusBadRequest <==> caller == target
    ensures r.status == StatusServerError <==> caller != target && svc.cast(target).None?
    ensures r.status == StatusOk <==>
      caller != target && svc.cast(target).Some? && caller in st.users && svc.cast(target).value in st.users
    ensures r.status == StatusBadRequest || r.status == StatusServerError ==> r.store == st
    ensures r.store.events == st.events && r.store.users.Keys == st.users.Keys
    ensures forall id :: id in st.users && id != caller && svc.cast(target) != Some(id) ==> r.store.users[id] == st.users[id]
    ensures caller != target && svc.cast(target).Some? ==>
      var t := svc.cast(target).value;
      && (t in st.users ==> caller !in r.store.users[t].followers)
      && (caller in st.users ==> t !in r.store.users[caller].following)
      && (t != caller && t in st.users ==>
            r.store.users[t] == st.users[t].(followers := Pull(st.users[t].followers, caller)))
      && (t != caller && caller in st.users ==>
            r.store.users[caller] == st.users[caller].(following := Pull(st.users[caller].following, t)))
      && (t == caller && caller in st.users ==>
            r.store.users[caller] == st.users[caller].(followers := Pull(st.users[caller].followers, caller),
                                                       following := Pull(st.users[caller].following, caller)))
  {
    if caller == target then Response(StatusBadRequest, st)
    else
      match svc.cast(target)
      case None => Response(StatusServerError, st)
      case Some(t) =>
        var afterTarget := PullFollower(st, t, caller);
        var afterCaller := PullFollowing(afterTarget, caller, t);
        if t !in st.users || caller !in st.users then Response(StatusNotFound, afterCaller)
        else Response(StatusOk, afterCaller)
  }

  /** Follow is idempotent: a second identical follow answers as the first
      did and leaves the store as the first left it. */
  lemma FollowIdempotent(st: Store, svc: Services, caller: ObjectId, target: string)
    ensures Follow(Follow(st, svc, caller, target).store, svc, caller, target) == Follow(st, svc, caller, target)
  {
  }

  /** Follow and unfollow are not atomic: when the target exists and the
      caller does not, the answer is 404 and yet the target now lists the
      caller among its followers; symmetrically for a missing target. */
  lemma FollowHalfApplied(st: Store, svc: Services, caller: ObjectId, target: string)
    requires caller != target && svc.cast(target).Some?
    ensures var t := svc.cast(target).value;
      && (t in st.users && caller !in st.users ==>
            && Follow(st, svc, caller, target).status == StatusNotFound
            && caller in Follow(st, svc, caller, target).store.users[t].followers)
      && (caller in st.users && t !in st.users ==>
            && Follow(st, svc, caller, target).status == StatusNotFound
            && t in Follow(st, svc, caller, target).store.users[caller].following)
  {
  }

  /** A path id that is not the caller's id but casts to it is accepted:
      the answer is 200 and the caller now follows themselves. */
  lemma CaseVariantSelfFollow(st: Store, svc: Services, caller: ObjectId, target: string)
    requires caller != target && svc.cast(target) == Some(caller) && caller in st.users
    ensures var r := Follow(st, svc, caller, target);
      && r.status == StatusOk
      && caller in r.store.users[caller].followers
      && caller in r.store.users[caller].following
  {
  }

  /** Starting with no edge between the two users, follow and then unfollow
      restore the store exactly, whether or not both users exist. */
  lemma UnfollowUndoesFollow(st: Store, svc: Services, caller: ObjectId, target: string)
    requires svc.cast(target).Some? ==>
      var t := svc.cast(target).value;
      && (t in st.users ==> caller !in st.users[t].followers)
      && (caller in st.users ==> t !in st.users[caller].following)
    ensures Unfollow(Follow(st, svc, caller, target).store, svc, caller, target).store == st
  {
    if caller != target && svc.cast(target).Some? {
      var st1 := Follow(st, svc, caller, target).store;
      var st2 := Unfollow(st1, svc, caller, target).store;
      forall id | id in st.users
        ensures st2.users[id] == st.users[id]
      {
        UnfollowUndoesFollowOn(st, svc, caller, target, id);
      }
      assert st2.users == st.users;
    }
  }

  /** UnfollowUndoesFollow for the document of one user. */
  lemma UnfollowUndoesFollowOn(st: Store, svc: Services, caller: ObjectId, target: string, id: ObjectId)
    requires caller != target && svc.cast(target).Some? && id in st.users
    requires var t := svc.cast(target).value;
      && (t in st.users ==> caller !in st.users[t].followers)
      && (caller in st.users ==> t !in st.users[caller].following)
    ensures Unfollow(Follow(st, svc, caller, target).store, svc, caller, target).store.users[id] == st.users[id]
  {
    var t := svc.cast(target).value;
    var st1 := Follow(st, svc, caller, target).store;
    var u, u1 := st.users[id], st1.users[id];
    var u2 := Unfollow(st1, svc, caller, target).store.users[id];
    if id == t && id == caller {
      assert u2 == u1.(followers := Pull(u1.followers, caller), following := Pull(u1.following, caller));
      PullUndoesAddToSet(u.followers, caller);
      PullUndoesAddToSet(u.following, caller);
    } else if id == t {
      assert u2 == u1.(followers := Pull(u1.followers, caller));
      PullUndoesAddToSet(u.followers, caller);
    } else if id == caller {
      assert u2 == u1.(following := Pull(u1.following, t));
      PullUndoesAddToSet(u.following, t);
    }
  }

  /** The `/user/:userId` answer: its status and the `isFollowing` flag. */
  datatype UserView = UserView(status: int, isFollowing: bool)

  /** `/user/:userId`: a target id that cannot be cast makes `findById`
      throw (500); a missing target gives 404; otherwise `isFollowing` says
      whether the caller is among the followers of the user found. */
  function ViewUser(st: Store, svc: Services, caller: ObjectId, target: string): (v: UserView)
    ensures v.status in {StatusOk, StatusNotFound, StatusServerError}
    ensures v.status == StatusServerError <==> svc.cast(target).None?
    ensures v.status == StatusOk <==> svc.cast(target).Some? && svc.cast(target).value in st.users
    ensures v.isFollowing <==> v.status == StatusOk && caller in st.users[svc.cast(target).value].followers
  {
    match svc.cast(target)
    case None => UserView(StatusServerError, false)
    case Some(t) =>
      if t !in st.users then UserView(StatusNotFound, false)
      else UserView(StatusOk, caller in st.users[t].followers)
  }

  /** After a follow the target's page shows the caller as following, even
      when the follow answered 404 because the caller is missing; after an
      unfollow it never does. */
  lemma FollowShowsOnTargetPage(st: Store, svc: Services, caller: ObjectId, target: string)
    requires caller != target && svc.cast(target).Some? && svc.cast(target).value in st.users
    ensures ViewUser(Follow(st, svc, caller, target).store, svc, caller, target).isFollowing
    ensures !ViewUser(Unfollow(st, svc, caller, target).store, svc, caller, target).isFollowing
  {
  }

  /** `/members`: every stored user except the caller. */
  function Members(st: Store, caller: ObjectId): (members: map<ObjectId, User>)
    ensures caller !in members
    ensures forall id :: id in st.users && id != caller ==> id in members && members[id] == st.users[id]
    ensures forall id :: id in members ==> id in st.users
  {
    map id | id in st.users && id != caller :: st.users[id]
  }

  /** `/members` and `/user/:userId` agree: a user listed as a member is
      found by its own id, and a user other than the caller that is found
      by a path id already in stored form is listed. */
  lemma MemberPagesFound(st: Store, svc: Services, caller: ObjectId, id: ObjectId)
    requires svc.cast(id) == Some(id)
    ensures id in Members(st, caller) ==> ViewUser(st, svc, caller, id).status == StatusOk
    ensures ViewUser(st, svc, caller, id).status == StatusOk && id != caller ==> id in Members(st, caller)
  {
  }
}

=== FILE: user_schema.dfy ===
/** The User document of the user collection. */
module UserSchema {
  import opened JsValues
  import opened RefLists

  /** The optional `location` sub-document of a user. */
  datatype UserLocation = UserLocation(city: Option<string>, state: Option<string>, country: Option<string>)

  /** One user document. Paths the schema gives a type but neither `required`
      nor a default are `Option`s; `attending` holds Event ids, `followers`
      and `following` hold User ids, all three as plain arrays. */
  datatype User = User(
    email: string,
    password: string,
    refreshToken: string,
    emailVerified: bool,
    firstName: Option<string>,
    lastName: Option<string>,
    birthday: Option<Date>,
    location: UserLocation,
    phone: Option<string>,
    phoneVerified: bool,
    profile: Option<string>,
    signUpIPAddress: Option<string>,
    stripeCustomerId: Option<string>,
    profileComplete: bool,
    attending: seq<ObjectId>,
    followers: seq<ObjectId>,
    following: seq<ObjectId>)

  /** The validation Mongoose runs when a user is saved: the `required`
      string paths `email` and `password` must hold non-empty strings. */
  predicate PassesValidation(u: User)
  {
    u.email != "" && u.password != ""
  }

  /** A new user document given only its email and hashed password: every
      other path takes its schema default, so the flags are false, the
      refresh token is empty, the reference arrays are empty and the
      optional paths are unset. */
  function NewUser(email: string, passwordHash: string): (u: User)
    ensures u.email == email && u.password == passwordHash
    ensures u.refreshToken == ""
    ensures !u.emailVerified && !u.phoneVerified && !u.profileComplete
    ensures u.attending == [] && u.followers == [] && u.following == []
    ensures u.firstName.None? && u.lastName.None? && u.birthday.None? && u.phone.None?
    ensures u.profile.None? && u.signUpIPAddress.None? && u.stripeCustomerId.None?
    ensures u.location == UserLocation(None, None, None)
    ensures PassesValidation(u) <==> email != "" && passwordHash != ""
  {
    User(email, passwordHash, "", false, None, None, None, UserLocation(None, None, None),
         None, false, None, None, None, false, [], [], [])
  }

  /** The schema puts no uniqueness constraint on the reference arrays: a
      document whose `followers` repeats an id still passes validation. */
  lemma SchemaAllowsRepeatedFollowers()
    ensures exists u :: PassesValidation(u) && !NoDups(u.followers)
  {
    var u := NewUser("a@b.c", "h").(followers := ["f", "f"]);
    assert multiset(u.followers)["f"] == 2;
    assert PassesValidation(u) && !NoDups(u.followers);
  }
}
